=== FILE: README.md ===
# GB1 variant resequencer, in Dafny

This project models the one piece of logic in the GB1 dataset builder. That
logic is `GB1.variant_to_sequence`. It rebuilds a full amino-acid sequence
from two inputs: a wild-type sequence, and a comma-separated list of
point-mutation tokens of the shape `<residue><digits><residue>`, such as
`V39A,D40G`. The project also models the way `_generate_examples` walks the
rows of a split file: it skips the header row, unpacks five fields, and keys
each record by its row index.

The model has three modules:

- `PyText` (`py_text.dfy`) restates the Python built-ins the code relies on
  over `seq<char>`: `str.split(',')` with `",".join` as its partner, the
  `s[1:]` slice, and `int()` on ASCII digits with `str(n)` as its partner.
- `Resequencer` (`resequencer.dfy`) holds the code as written.
  `VariantToSequence` walks the tokens in list order. For each token it
  parses the token and then writes into the sequence, and it stops at the
  first failure. Beside it is an independent reference. The reference first
  validates every token. It then defines each output position on its own as
  the residue of the last token that names it, or the wild-type residue if
  none does. The lemma `ApplyMatchesReference` proves the loop equal to the
  reference, and the length, frame, last-write-wins and ordering properties
  follow from that.
- `Gb1Builder` (`gb1_builder.dfy`) holds the fixed 56-residue wild type and
  the row walk. Rows arrive already split into fields. The walk takes the
  resequencing call as a function parameter, and `GenerateExamples` passes it
  `VariantToSequence` against the wild type. The walk is a generator, so its
  result is the records yielded so far plus the error that stopped the pass,
  if any.

Python exceptions become the `Error` datatype:

- `EmptyToken` is the IndexError from `variant[-1]` on an empty token.
- `BadPosition` is the ValueError from `int()`.
- `IndexOutOfRange` is the IndexError from the list assignment.
- `FieldCount` is the unpacking error on a row that does not have five fields.

## Indexing convention

The code uses the parsed digits directly as a 0-based list index, with no
decrement. It drops the token's first letter without comparing it to the
wild type. The model keeps that behaviour.

In the wild type, `V` sits at index 38 and `D` at index 39. So `V39A`
overwrites the `D` at index 39, and `E56A` fails because 56 is past the end
of the 56 residues. `WildTypeResidues`, `V39AWritesIndex39` and
`Position56OutOfRange` prove these cases. Nothing in the builder says whether
the notation counts residues from 0 or from 1. If it counts from 1, every
token lands one index to the right of the residue it names, and the last
residue cannot be mutated. The model does not shift the index by one,
because the code does not.

An empty notation does not give back the wild type. In the code,
`"".split(',')` is `[""]` and `""[-1]` raises, so an empty notation fails.
`EmptyNotationFails` states this.

## Model

| member | source | states |
|---|---|---|
| PyText.Split | GB1/GB1.py:53 | `notation.split(',')` always gives at least one piece, no piece contains a comma, and joining the pieces with commas gives back the notation |
| PyText.SplitJoin | GB1/GB1.py:53 | splitting a comma-join of comma-free tokens gives back exactly those tokens |
| PyText.ParseNat | GB1/GB1.py:56 | `int()` accepts exactly the non-empty runs of ASCII digits, and reads a run without a leading zero as the number whose `str()` rendering is that run |
| PyText.Tail | GB1/GB1.py:56 | `position[1:]` is the text after the first character, and "" for an empty text |
| PyText.DecimalRoundTrip | GB1/GB1.py:56 | `int()` reads the decimal rendering of any natural number back as that number |
| PyText.LeadingZeroIgnored | GB1/GB1.py:56 | a leading zero does not change what `int()` reads (`039` is 39), and, below the interpreter's digit limit, it does not change whether the text is refused |
| Resequencer.ParseToken | GB1/GB1.py:55-56 | a token fails as empty exactly when it is ""; it parses exactly when it has at least three characters and everything between the first and the last is a digit; the index is the decimal value of those middle characters and the residue is the last character; every other non-empty token fails with the position error carrying the text between its first and last characters |
| Resequencer.Step | GB1/GB1.py:55-57 | one loop pass succeeds exactly when the token parses to an index inside the current sequence, and otherwise raises that token's error; on success it writes the token's residue at its index and leaves every other index and the length unchanged |
| Resequencer.FormatThenParse | GB1/GB1.py:55-56 | parsing `<original><str(pos)><residue>` gives back index `pos` itself, with no decrement, and `residue`; `original` is dropped |
| Resequencer.OriginalResidueIgnored | GB1/GB1.py:55-56 | two tokens that differ only in their first character parse identically, so the claimed original residue is never checked |
| Resequencer.ApplyTokens | GB1/GB1.py:54-57 | when the token loop succeeds, the sequence it returns has the length it started with |
| Resequencer.VariantToSequence | GB1/GB1.py:51-58 | on success, the output has the same length as the wild type |
| Resequencer.ApplyMatchesReference | GB1/GB1.py:54-57 | the interleaved parse-and-write loop gives exactly the reference result: the first bad token's error, or the sequence where each position holds the residue of the last token naming it and every other position holds its wild-type residue |
| Resequencer.SuccessAndFirstError | GB1/GB1.py:53-57 | the call succeeds if and only if every token parses and names an index below the wild-type length; when it fails, the error is that of the first such failing token in list order |
| Resequencer.UnnamedKept | GB1/GB1.py:52-58 | every index that no token names keeps its wild-type residue |
| Resequencer.LastTokenWins | GB1/GB1.py:54-57 | the index a token names holds that token's last character unless a later token names the same index, so the last write wins |
| Resequencer.SingleToken | GB1/GB1.py:51-58 | a single token writes its residue at the parsed index itself when that index is inside the wild type, and fails with the index error otherwise |
| Resequencer.TwoTokens | GB1/GB1.py:54-57 | two tokens are applied left to right, each on the previous result; if either index is out of range the call fails |
| Resequencer.EmptyNotationFails | GB1/GB1.py:53-55 | the empty notation fails with the empty-token error instead of giving back the wild type |
| Resequencer.MissingPositionFails | GB1/GB1.py:55-56 | `A`, `VA` and `VxA` fail with the position error, carrying the text `int()` was given |
| Resequencer.OrderIrrelevant | GB1/GB1.py:54-57 | any reordering of tokens that all parse and name pairwise-distinct indices gives the same result, whether success or failure |
| Gb1Builder.GenerateFrom | GB1/GB1.py:97-107 | for any resequencing call, record `k` of the loop started at row `i` is built from row `i + k`, which has five fields and a variant the call accepts, and the record holds that row's index, variant, sequence, mutation count and score; so a pass that stops, stops at the first row that lacks five fields or has a refused variant, and it reports that row's error; a pass that does not stop runs to the last row |
| Gb1Builder.GenerateExamples | GB1/GB1.py:97-107 | record `k` has key `k + 1` and comes from row `k + 1`; that row has five fields, and the record holds the row's variant, mutation count, score and resequenced variant; a clean pass yields one record per row after the header; a failed pass names the first bad row and yields nothing from it or any later row |
| Gb1Builder.SequencesKeepLength | GB1/GB1.py:101-104 | every sequence the pass yields has the wild type's length |
| Gb1Builder.HeaderIgnored | GB1/GB1.py:97-99 | replacing row 0 with anything, whatever its field count, does not change the pass |
| Gb1Builder.GenerateExamplesStreams | GB1/GB1.py:97-102 | appending rows only adds records after those already yielded, and it changes nothing once a row has stopped the pass |
| Gb1Builder.WildTypeResidues | GB1/GB1.py:94 | the wild type has 56 residues, with `V` at index 38 and `D` at index 39 |
| Gb1Builder.V39AWritesIndex39 | GB1/GB1.py:55-57 | `V39A` on the wild type overwrites index 39, the `D`, with `A`, and leaves everything else unchanged |
| Gb1Builder.WildTypeIndex40Unchanged | GB1/GB1.py:94 | index 40 of the wild type already holds `G`, so writing `G` there changes nothing |
| Gb1Builder.TwoTokenVariant | GB1/GB1.py:53-58 | `D40G` rewrites the `G` already at index 40, so `V39A,D40G` differs from the wild type at index 39 only |
| Gb1Builder.RepeatedIndexLaterWins | GB1/GB1.py:54-57 | in `V39A,V39G` the later token decides index 39 |
| Gb1Builder.OutOfRangeTokenFirst | GB1/GB1.py:57 | `V99A,VxA` fails with the index error raised by the first token |
| Gb1Builder.MalformedTokenFirst | GB1/GB1.py:56 | `VxA,V99A` fails with the position error raised by the first token |
| Gb1Builder.Position56OutOfRange | GB1/GB1.py:57 | position 56 is past the end of the 56-residue wild type, so the variant fails |
| Gb1Builder.ShortRowStopsPass | GB1/GB1.py:100 | a two-field row stops the pass after the record of the row before it, and the row after it yields nothing |

## Left out

- Opening the split file, UTF-8 decoding and `csv.reader` tab splitting (GB1/GB1.py:95-96) are I/O. Rows enter the model as already-split `seq<seq<string>>`.
- `float(score)` (GB1/GB1.py:106) is floating-point parsing. The score is kept as its text, so the model never fails on an unparsable score.
- Python `int()` also accepts a sign, surrounding whitespace, underscores and non-ASCII digits. A negative index such as `V-1A` then wraps around to the end of the list. The model accepts only ASCII digit runs and refuses everything else with the position error.
- PyText.ParseNat: does not model CPython's limit on the length of the text `int()` converts (4300 digits by default since Python 3.11 and the 2022 security releases of 3.7 to 3.10). Under that limit a position of more than 4300 digits is refused with ValueError, where the model reads it as its value, so the write succeeds when that value is inside the sequence (a run padded with leading zeros) and fails with the index error otherwise. The limit depends on the interpreter version and on `sys.set_int_max_str_digits`, which the builder does not set.
- PyText.LeadingZeroIgnored: holds only below that digit limit, because leading zeros count toward it, so one zero added to a 4300-digit run turns acceptance into refusal.
- The `datasets` library casts the `num_mutations` text to int32 later (GB1/GB1.py:77, 105). That cast is outside the builder, so the model keeps the field's text.
- `GB1Config`, `_split_generators`, `_info`, the citation, the description and the logger (GB1/GB1.py:4-49, 60-89, 93) are configuration, metadata and logging, with no behaviour to verify.
- Python error messages are not modelled. Each error keeps only its kind, and the position error also keeps the text that was refused.
- Resequencer.OrderIrrelevant: requires every token to parse. With one malformed and one out-of-range token, the order decides which error is raised (`OutOfRangeTokenFirst` and `MalformedTokenFirst`), so the results are not equal.
- Resequencer.SingleToken and Resequencer.TwoTokens: require the residue letters not to be commas, since a comma there would split the token in two.

=== FILE: gb1_builder.dfy ===
/** The example-generation pass of the GB1 dataset builder
    (`GB1._generate_examples`), over rows the tab-separated reader has already
    split into fields: the header row is skipped, every later row must have
    exactly five fields, its variant is resequenced against the fixed GB1 wild
    type, and the record is keyed by the row's index.  The pass is a generator:
    records before a bad row have been yielded when the bad row stops it. */
module Gb1Builder {
  import opened PyText
  import opened Resequencer

  /** The 56-residue wild-type GB1 domain the builder resequences against. */
  const WildType: string := "MQYKLILNGKTLKGETTTEAVDAATAEKVFKQYANDNGVDGEWTYDDATKTFTVTE"

  /** One yielded record with its key.  `numMutations` is kept as the field's
      text (the schema's cast to int32 happens outside the builder) and
      `labels` as the score's text (its float conversion is not modelled). */
  datatype Example = Example(key: nat, variant: string, sequence: string, numMutations: string, labels: string)

  /** Why a pass stops: a row that does not unpack into five fields, or a
      variant the resequencer refuses. */
  datatype PassError = FieldCount(got: nat) | BadVariant(error: Error)

  /** What a pass produces: the records yielded, in order, and the error that
      stopped it, if any. */
  datatype Generation = Generation(examples: seq<Example>, failure: Option<PassError>)

  /** The call that turns a row's variant into its sequence (in the builder,
      `variant_to_sequence` against the wild type). */
  type Resequence = string -> Result<string>

  /** A row the pass turns into a record. */
  predicate RowOk(row: seq<string>, resequence: Resequence) {
    |row| == 5 && resequence(row[0]).Ok?
  }

  /** The error a row that is not `RowOk` stops the pass with: the field count
      is checked by the unpacking before the variant is resequenced. */
  function RowError(row: seq<string>, resequence: Resequence): PassError
    requires !RowOk(row, resequence)
  {
    if |row| != 5 then FieldCount(|row|) else BadVariant(resequence(row[0]).error)
  }

  /** The record the pass yields for a good row at index `i`. */
  function ExampleOf(i: nat, row: seq<string>, resequence: Resequence): Example
    requires RowOk(row, resequence)
  {
    Example(i, row[0], resequence(row[0]).value, row[1], row[4])
  }

  /** The loop of the pass from row `i` on: it stops at the first row that is
      not `RowOk`, or at the end of the rows.  Record `k` is the record of row
      `i + k`, so every row before the stop was good. */
  function GenerateFrom(rows: seq<seq<string>>, i: nat, resequence: Resequence): (g: Generation)
    ensures |g.examples| == 0 || i + |g.examples| <= |rows|
    ensures g.failure.None? ==> i + |g.examples| >= |rows|
    ensures g.failure.Some? ==>
      i + |g.examples| < |rows| && !RowOk(rows[i + |g.examples|], resequence)
      && g.failure.value == RowError(rows[i + |g.examples|], resequence)
    ensures forall k | 0 <= k < |g.examples| :: RecordOfRow(rows, i + k, g.examples[k], resequence)
    decreases |rows| - i
  {
    if i >= |rows| then Generation([], None)
    else if !RowOk(rows[i], resequence) then Generation([], Some(RowError(rows[i], resequence)))
    else
      var rest := GenerateFrom(rows, i + 1, resequence);
      var g := Generation([ExampleOf(i, rows[i], resequence)] + rest.examples, rest.failure);
      assert forall k | 0 <= k < |g.examples| :: RecordOfRow(rows, i + k, g.examples[k], resequence) by {
        forall k | 0 <= k < |g.examples| ensures RecordOfRow(rows, i + k, g.examples[k], resequence) {
          if k > 0 { assert g.examples[k] == rest.examples[k - 1]; }
        }
      }
      g
  }

  /** `e` is the record the pass yields for row `j`. */
  predicate RecordOfRow(rows: seq<seq<string>>, j: nat, e: Example, resequence: Resequence) {
    j < |rows| && RowOk(rows[j], resequence) && e == ExampleOf(j, rows[j], resequence)
  }

  /** The pass reads rows from `i` on only. */
  lemma {:induction false} GenerateFromReadsSuffix(rows: seq<seq<string>>, other: seq<seq<string>>, i: nat, resequence: Resequence)
    requires |rows| == |other|
    requires forall j | i <= j < |rows| :: rows[j] == other[j]
    ensures GenerateFrom(rows, i, resequence) == GenerateFrom(other, i, resequence)
    decreases |rows| - i
  {
    if i < |rows| {
      assert rows[i] == other[i];
      GenerateFromReadsSuffix(rows, other, i + 1, resequence);
    }
  }

  /** Rows appended after a pass that stopped change nothing; after a clean
      pass they only add records after the ones already yielded. */
  lemma {:induction false} GenerateFromStreams(rows: seq<seq<string>>, more: seq<seq<string>>, i: nat, resequence: Resequence)
    ensures GenerateFrom(rows, i, resequence).examples <= GenerateFrom(rows + more, i, resequence).examples
    ensures GenerateFrom(rows, i, resequence).failure.Some? ==>
      GenerateFrom(rows + more, i, resequence) == GenerateFrom(rows, i, resequence)
    decreases |rows| - i
  {
    var all := rows + more;
    if i < |rows| {
      assert all[i] == rows[i];
      GenerateFromStreams(rows, more, i + 1, resequence);
    }
  }

  // ---------------------------------------------------------------------------
  // The pass over a split file
  // ---------------------------------------------------------------------------

  /** `self.variant_to_sequence(variant, wild_type)` as the pass calls it. */
  function ResequenceAgainst(wildType: string): Resequence {
    v => VariantToSequence(v, wildType)
  }

  /** Record `k` of the pass over a split file comes from row `k + 1`. */
  lemma PassRecords(rows: seq<seq<string>>, wildType: string, k: nat)
    requires k < |GenerateFrom(rows, 1, ResequenceAgainst(wildType)).examples|
    ensures var e := GenerateFrom(rows, 1, ResequenceAgainst(wildType)).examples[k];
      && k + 1 < |rows|
      && e.key == k + 1
      && |rows[k + 1]| == 5
      && e.variant == rows[k + 1][0]
      && e.numMutations == rows[k + 1][1]
      && e.labels == rows[k + 1][4]
      && VariantToSequence(rows[k + 1][0], wildType) == Ok(e.sequence)
  {
    var g := GenerateFrom(rows, 1, ResequenceAgainst(wildType));
    assert RecordOfRow(rows, 1 + k, g.examples[k], ResequenceAgainst(wildType));
  }

  /** `_generate_examples` on the rows of one split file.  Row 0 is never
      turned into a record; record `k` comes from row `k + 1` and carries the
      key `k + 1`, so keys start at 1 and go up by one.  A clean pass yields
      one record per row after the header; a pass that stops names the first
      bad row, and nothing from that row or any later row is yielded. */
  function GenerateExamples(rows: seq<seq<string>>, wildType: string): (g: Generation)
    ensures forall k | 0 <= k < |g.examples| ::
      && k + 1 < |rows|
      && g.examples[k].key == k + 1
      && |rows[k + 1]| == 5
      && g.examples[k].variant == rows[k + 1][0]
      && g.examples[k].numMutations == rows[k + 1][1]
      && g.examples[k].labels == rows[k + 1][4]
      && VariantToSequence(rows[k + 1][0], wildType) == Ok(g.examples[k].sequence)
    ensures g.failure.None? ==> |g.examples| == if |rows| == 0 then 0 else |rows| - 1
    ensures g.failure.Some? ==>
      var bad := 1 + |g.examples|;
      && bad < |rows|
      && (|rows[bad]| != 5 ==> g.failure.value == FieldCount(|rows[bad]|))
      && (|rows[bad]| == 5 ==>
            && VariantToSequence(rows[bad][0], wildType).Err?
            && g.failure.value == BadVariant(VariantToSequence(rows[bad][0], wildType).error))
  {
    PassRecordsAll(rows, wildType);
    PassFailure(rows, wildType);
    GenerateFrom(rows, 1, ResequenceAgainst(wildType))
  }

  /** Every record of the pass over a split file, field by field. */
  lemma PassRecordsAll(rows: seq<seq<string>>, wildType: string)
    ensures var g := GenerateFrom(rows, 1, ResequenceAgainst(wildType));
      forall k | 0 <= k < |g.examples| ::
        && k + 1 < |rows|
        && g.examples[k].key == k + 1
        && |rows[k + 1]| == 5
        && g.examples[k].variant == rows[k + 1][0]
        && g.examples[k].numMutations == rows[k + 1][1]
        && g.examples[k].labels == rows[k + 1][4]
        && VariantToSequence(rows[k + 1][0], wildType) == Ok(g.examples[k].sequence)
  {
    var g := GenerateFrom(rows, 1, ResequenceAgainst(wildType));
    forall k | 0 <= k < |g.examples|
      ensures && k + 1 < |rows|
              && g.examples[k].key == k + 1
              && |rows[k + 1]| == 5
              && g.examples[k].variant == rows[k + 1][0]
              && g.examples[k].numMutations == rows[k + 1][1]
              && g.examples[k].labels == rows[k + 1][4]
              && VariantToSequence(rows[k + 1][0], wildType) == Ok(g.examples[k].sequence)
    {
      PassRecords(rows, wildType, k);
    }
  }

  /** How the pass over a split file ends: after every data row, or at the
      first bad one with that row's error. */
  lemma PassFailure(rows: seq<seq<string>>, wildType: string)
    ensures var g := GenerateFrom(rows, 1, ResequenceAgainst(wildType));
      && (g.failure.None? ==> |g.examples| == if |rows| == 0 then 0 else |rows| - 1)
      && (g.failure.Some? ==>
            var bad := 1 + |g.examples|;
            && bad < |rows|
            && (|rows[bad]| != 5 ==> g.failure.value == FieldCount(|rows[bad]|))
            && (|rows[bad]| == 5 ==>
                  && VariantToSequence(rows[bad][0], wildType).Err?
                  && g.failure.value == BadVariant(VariantToSequence(rows[bad][0], wildType).error)))
  {
  }

  /** Every yielded sequence has the wild type's length. */
  lemma SequencesKeepLength(rows: seq<seq<string>>, wildType: string)
    ensures forall k | 0 <= k < |GenerateExamples(rows, wildType).examples| ::
      |GenerateExamples(rows, wildType).examples[k].sequence| == |wildType|
  {
  }

  /** The header row's contents never matter, whatever its field count. */
  lemma HeaderIgnored(rows: seq<seq<string>>, header: seq<string>, wildType: string)
    requires |rows| >= 1
    ensures GenerateExamples(rows[0 := header], wildType) == GenerateExamples(rows, wildType)
  {
    GenerateFromReadsSuffix(rows[0 := header], rows, 1, ResequenceAgainst(wildType));
  }

  lemma GenerateExamplesStreams(rows: seq<seq<string>>, more: seq<seq<string>>, wildType: string)
    ensures GenerateExamples(rows, wildType).examples <= GenerateExamples(rows + more, wildType).examples
    ensures GenerateExamples(rows, wildType).failure.Some? ==>
      GenerateExamples(rows + more, wildType) == GenerateExamples(rows, wildType)
  {
    GenerateFromStreams(rows, more, 1, ResequenceAgainst(wildType));
  }

  // ---------------------------------------------------------------------------
  // The GB1 wild type and the digits-as-index convention
  // ---------------------------------------------------------------------------

  /** The wild type has 56 residues, with 'V' at index 38 and 'D' at index 39. */
  lemma WildTypeResidues()
    ensures |WildType| == 56
    ensures WildType[38] == 'V' && WildType[39] == 'D'
  {
  }

  /** `V39A` writes 'A' at index 39 of the wild type, the index that holds
      'D': the digits are used as a 0-based index as they stand, and the
      letter before them is not compared with the residue it replaces. */
  lemma V39AWritesIndex39()
    ensures VariantToSequence("V39A", WildType) == Ok(WildType[39 := 'A'])
  {
    WildTypeResidues();
    assert "V39A" == FormatToken('V', 39, 'A') by {
      assert Decimal(39) == "39" by {
        assert Decimal(3) == "3";
      }
    }
    SingleToken('V', 39, 'A', WildType);
  }

  /** Index 40 of the wild type already holds 'G', so writing 'G' there
      changes nothing. */
  lemma WildTypeIndex40Unchanged()
    ensures WildType[40] == 'G'
    ensures WildType[39 := 'A'][40 := 'G'] == WildType[39 := 'A']
  {
    var w := WildType[39 := 'A'];
    assert w[40] == 'G';
  }

  /** `D40G` rewrites the 'G' already at index 40, so `V39A,D40G` differs from
      the wild type at index 39 only. */
  lemma TwoTokenVariant()
    ensures VariantToSequence("V39A,D40G", WildType) == Ok(WildType[39 := 'A'])
  {
    assert "V39A,D40G" == FormatToken('V', 39, 'A') + "," + FormatToken('D', 40, 'G') by {
      assert Decimal(39) == "39" by { assert Decimal(3) == "3"; }
      assert Decimal(40) == "40" by { assert Decimal(4) == "4"; }
    }
    TwoTokens('V', 39, 'A', 'D', 40, 'G', WildType);
    WildTypeIndex40Unchanged();
  }

  /** When two tokens name one index, the later one decides it. */
  lemma RepeatedIndexLaterWins()
    ensures VariantToSequence("V39A,V39G", WildType) == Ok(WildType[39 := 'G'])
  {
    var t1, t2 := FormatToken('V', 39, 'A'), FormatToken('V', 39, 'G');
    assert Decimal(39) == "39" by { assert Decimal(3) == "3"; }
    assert t1 + "," + t2 == "V39A,V39G";
    TwoTokens('V', 39, 'A', 'V', 39, 'G', WildType);
    var w := WildType;
    assert w[39 := 'A'][39 := 'G'] == w[39 := 'G'];
  }

  /** An out-of-range token ahead of a malformed one fails with the index error
      of the first token. */
  lemma OutOfRangeTokenFirst()
    ensures VariantToSequence("V99A,VxA", WildType) == Err(IndexOutOfRange)
  {
    var t1, t2 := FormatToken('V', 99, 'A'), "VxA";
    assert Decimal(99) == "99" by { assert Decimal(9) == "9"; }
    FormatThenParse('V', 99, 'A');
    FormattedTokenNoComma('V', 99, 'A');
    assert NoComma(t2);
    SplitJoin([t1, t2]);
    assert Join([t1, t2]) == "V99A,VxA";
  }

  /** The same two tokens the other way round fail with the position error of
      the malformed token: the first bad token in list order decides the error. */
  lemma MalformedTokenFirst()
    ensures VariantToSequence("VxA,V99A", WildType) == Err(BadPosition("x"))
  {
    var t1, t2 := "VxA", FormatToken('V', 99, 'A');
    assert Decimal(99) == "99" by { assert Decimal(9) == "9"; }
    FormattedTokenNoComma('V', 99, 'A');
    assert "VxA"[..2] == "Vx" && Tail("Vx") == "x" && !IsDigit('x');
    assert ParseToken(t1) == Err(BadPosition("x"));
    assert NoComma(t1);
    SplitJoin([t1, t2]);
    assert Join([t1, t2]) == "VxA,V99A";
  }

  /** Index 56 is past the end of the 56-residue wild type, so a token naming
      position 56 fails. */
  lemma Position56OutOfRange()
    ensures VariantToSequence("E56A", WildType) == Err(IndexOutOfRange)
  {
    assert "E56A" == FormatToken('E', 56, 'A') by {
      assert Decimal(56) == "56" by { assert Decimal(5) == "5"; }
    }
    SingleToken('E', 56, 'A', WildType);
  }

  /** A short row stops the pass after the records of the rows before it. */
  lemma ShortRowStopsPass()
    ensures var g := GenerateExamples([["variant", "num_mutations", "inp", "sel", "score"],
                                        ["V39A", "1", "10", "20", "0.5"],
                                        ["D40G", "1"],
                                        ["D40A", "1", "10", "20", "0.7"]], WildType);
      && |g.examples| == 1
      && g.examples[0] == Example(1, "V39A", WildType[39 := 'A'], "1", "0.5")
      && g.failure == Some(FieldCount(2))
  {
    V39AWritesIndex39();
  }
}

=== FILE: py_text.dfy ===
/** The three Python string built-ins the GB1 resequencer leans on, restated over
    `seq<char>`: `str.split(',')`, the `s[1:]` slice, and `int()` on a run of
    ASCII decimal digits.  `",".join` is defined alongside as the partner of the
    split. */
module PyText {

  datatype Option<+T> = None | Some(value: T)

  // ---------------------------------------------------------------------------
  // Decimal digits and int()
  // ---------------------------------------------------------------------------

  /** The ASCII decimal digits; the only characters the model accepts in a position. */
  predicate IsDigit(c: char) {
    '0' <= c <= '9'
  }

  predicate AllDigits(s: string) {
    forall k | 0 <= k < |s| :: IsDigit(s[k])
  }

  function DigitValue(c: char): (d: nat)
    requires IsDigit(c)
    ensures d < 10
  {
    c as int - '0' as int
  }

  function DigitChar(d: nat): (c: char)
    requires d < 10
    ensures IsDigit(c) && DigitValue(c) == d
  {
    ('0' as int + d) as char
  }

  /** The value of a digit string read in base 10, most significant digit first. */
  function DecimalValue(s: string): nat
    requires AllDigits(s)
    decreases |s|
  {
    if |s| == 0 then 0 else 10 * DecimalValue(s[..|s| - 1]) + DigitValue(s[|s| - 1])
  }

  /** `int(s)` for a non-empty string of ASCII digits; every other string is
      refused (None), where Python raises ValueError.  A digit run written
      without a leading zero is read as the number `str()` renders as that run. */
  function ParseNat(s: string): (r: Option<nat>)
    ensures r.Some? <==> |s| > 0 && AllDigits(s)
    ensures r.Some? && (|s| == 1 || s[0] != '0') ==> Decimal(r.value) == s
  {
    if |s| > 0 && AllDigits(s) then
      if |s| == 1 || s[0] != '0' then CanonicalRoundTrip(s); Some(DecimalValue(s))
      else Some(DecimalValue(s))
    else None
  }

  lemma {:induction false} LeadingDigitPositive(s: string)
    requires |s| > 0 && AllDigits(s) && s[0] != '0'
    ensures DecimalValue(s) >= 1
    decreases |s|
  {
    var p := s[..|s| - 1];
    if |p| == 0 {
      assert DecimalValue(s) == 10 * DecimalValue(p) + DigitValue(s[0]);
    } else {
      assert p[0] == s[0];
      LeadingDigitPositive(p);
    }
  }

  /** A digit run without a leading zero is the rendering of its own value. */
  lemma {:induction false} CanonicalRoundTrip(s: string)
    requires |s| > 0 && AllDigits(s) && (|s| == 1 || s[0] != '0')
    ensures Decimal(DecimalValue(s)) == s
    decreases |s|
  {
    var p, d := s[..|s| - 1], s[|s| - 1];
    var n := DecimalValue(s);
    assert DigitChar(DigitValue(d)) == d;
    if |p| == 0 {
      assert n == 10 * DecimalValue(p) + DigitValue(d);
    } else {
      assert p[0] == s[0];
      LeadingDigitPositive(p);
      CanonicalRoundTrip(p);
      assert n / 10 == DecimalValue(p) && n % 10 == DigitValue(d);
      assert s == p + [d];
    }
  }

  /** The shortest decimal rendering of `n` (what `str(n)` prints). */
  function Decimal(n: nat): (s: string)
    ensures |s| > 0 && AllDigits(s)
    decreases n
  {
    if n < 10 then [DigitChar(n)] else Decimal(n / 10) + [DigitChar(n % 10)]
  }

  /** Reading back a rendered number gives the number. */
  lemma {:induction false} DecimalRoundTrip(n: nat)
    ensures ParseNat(Decimal(n)) == Some(n)
    decreases n
  {
    var s := Decimal(n);
    if n >= 10 {
      DecimalRoundTrip(n / 10);
      assert s[..|s| - 1] == Decimal(n / 10);
      assert DecimalValue(s) == 10 * (n / 10) + n % 10;
    } else {
      assert DecimalValue(s) == 10 * DecimalValue("") + DigitValue(s[0]);
    }
  }

  /** Leading zeros do not change the value, as with Python's `int("039")`. */
  lemma {:induction false} LeadingZeroIgnored(s: string)
    requires |s| > 0
    ensures ParseNat("0" + s) == ParseNat(s)
    decreases |s|
  {
    var z := "0" + s;
    if AllDigits(s) {
      ZeroPrefixValue(s);
    } else {
      var k :| 0 <= k < |s| && !IsDigit(s[k]);
      assert z[k + 1] == s[k];
    }
  }

  /** A zero in front of a digit run keeps it a digit run of the same value. */
  lemma {:induction false} ZeroPrefixValue(s: string)
    requires AllDigits(s)
    ensures AllDigits("0" + s) && DecimalValue("0" + s) == DecimalValue(s)
    decreases |s|
  {
    var z := "0" + s;
    forall k | 0 <= k < |z| ensures IsDigit(z[k]) {
      if k > 0 { assert z[k] == s[k - 1]; }
    }
    if |s| > 0 {
      var p := s[..|s| - 1];
      assert z[..|z| - 1] == "0" + p;
      ZeroPrefixValue(p);
    }
  }

  // ---------------------------------------------------------------------------
  // Slicing
  // ---------------------------------------------------------------------------

  /** Python's `s[1:]`: drops the first character, and is "" (no error) on "". */
  function Tail(s: string): (r: string)
    ensures |s| == 0 ==> r == ""
    ensures |s| > 0 ==> [s[0]] + r == s
  {
    if |s| == 0 then s else s[1..]
  }

  // ---------------------------------------------------------------------------
  // str.split(',') and ",".join
  // ---------------------------------------------------------------------------

  /** `",".join(parts)`. */
  function Join(parts: seq<string>): string
    decreases |parts|
  {
    if |parts| == 0 then ""
    else if |parts| == 1 then parts[0]
    else parts[0] + "," + Join(parts[1..])
  }

  predicate NoComma(s: string) {
    ',' !in s
  }

  /** The first position of `c` in `s`. */
  function IndexOf(s: string, c: char): (i: nat)
    requires c in s
    ensures i < |s| && s[i] == c && c !in s[..i]
    decreases |s|
  {
    if s[0] == c then 0
    else
      var j := IndexOf(s[1..], c);
      assert s[..j + 1] == [s[0]] + s[1..][..j];
      j + 1
  }

  /** `s.split(',')`: always at least one piece (the empty string splits into
      one empty piece), no piece holds a comma, and joining the pieces back
      with commas gives `s`. */
  function Split(s: string): (parts: seq<string>)
    ensures |parts| >= 1
    ensures forall k | 0 <= k < |parts| :: NoComma(parts[k])
    ensures Join(parts) == s
    decreases |s|
  {
    if ',' !in s then [s]
    else
      var i := IndexOf(s, ',');
      var rest := Split(s[i + 1..]);
      assert s == s[..i] + "," + s[i + 1..];
      [s[..i]] + rest
  }

  /** In `head + "," + rest` with a comma-free `head`, the first comma is the
      one after `head`. */
  lemma FirstCommaAfterHead(head: string, rest: string)
    requires NoComma(head)
    ensures IndexOf(head + "," + rest, ',') == |head|
  {
    var s := head + "," + rest;
    assert s[|head|] == ',';
    assert s[..|head|] == head;
  }

  /** `head` is the first piece of `head + "," + rest`. */
  lemma SplitAtFirstComma(head: string, rest: string)
    requires NoComma(head)
    ensures Split(head + "," + rest) == [head] + Split(rest)
  {
    var s := head + "," + rest;
    FirstCommaAfterHead(head, rest);
    assert s[|head|] == ',';
    assert s[..|head|] == head && s[|head| + 1..] == rest;
  }

  /** Splitting a comma-join of comma-free pieces gives the pieces back. */
  lemma {:induction false} SplitJoin(parts: seq<string>)
    requires |parts| >= 1
    requires forall k | 0 <= k < |parts| :: NoComma(parts[k])
    ensures Split(Join(parts)) == parts
    decreases |parts|
  {
    if |parts| == 1 {
      assert NoComma(parts[0]);
    } else {
      var head, tail := parts[0], parts[1..];
      assert NoComma(head);
      assert forall k | 0 <= k < |tail| :: NoComma(tail[k]) by {
        forall k | 0 <= k < |tail| ensures NoComma(tail[k]) {
          assert tail[k] == parts[k + 1];
        }
      }
      SplitJoin(tail);
      var s := Join(parts);
      assert s == head + "," + Join(tail);
      SplitAtFirstComma(head, Join(tail));
      assert parts == [head] + tail;
    }
  }
}

=== FILE: resequencer.dfy ===
/** The variant resequencer of the GB1 dataset builder
    (`GB1.variant_to_sequence`): rebuilds a full amino-acid sequence from a
    wild-type sequence and a comma-separated list of point-mutation tokens
    `<residue><digits><residue>`.

    The model follows the code literally: the digits are used as a 0-based
    index with no decrement, the leading residue letter is dropped unread, and
    the tokens are parsed and written one at a time, so the first bad token
    (in list order) decides the error. */
module Resequencer {
  import opened PyText

  /** The exceptions the Python code can raise, one constructor each. */
  datatype Error =
    | EmptyToken              // `variant[-1]` on an empty token: IndexError
    | BadPosition(digits: string)  // `int(...)` refuses the position text: ValueError
    | IndexOutOfRange         // `full_sequence[position] = ...` past the end: IndexError

  datatype Result<+T> = Ok(value: T) | Err(error: Error)

  /** A parsed token: the index it writes and the residue it writes there. */
  datatype Mutation = Mutation(pos: nat, residue: char)

  // ---------------------------------------------------------------------------
  // The code as written
  // ---------------------------------------------------------------------------

  /** One token: split off the last character as the new residue, drop the
      first character of the rest, and read what remains as a decimal index. */
  function ParseToken(t: string): (r: Result<Mutation>)
    ensures r == Err(EmptyToken) <==> |t| == 0
    ensures r.Ok? <==> |t| >= 3 && AllDigits(t[1..|t| - 1])
    ensures r.Ok? ==> r.value.pos == DecimalValue(t[1..|t| - 1]) && r.value.residue == t[|t| - 1]
    ensures |t| > 0 && r.Err? ==> r == Err(BadPosition(Tail(t[..|t| - 1])))
  {
    if |t| == 0 then Err(EmptyToken)
    else
      var position, aminoAcid := t[..|t| - 1], t[|t| - 1];
      var digits := Tail(position);
      assert |t| >= 2 ==> digits == t[1..|t| - 1];
      match ParseNat(digits)
      case None => Err(BadPosition(digits))
      case Some(p) => Ok(Mutation(p, aminoAcid))
  }

  /** One pass of the loop body: parse the token, then assign into the list.
      It succeeds exactly when the token is good on its own for a sequence of
      this length, and then changes only the index the token names. */
  function Step(current: string, t: string): (r: Result<string>)
    ensures r.Ok? <==> CheckToken(t, |current|).Ok?
    ensures r.Err? ==> r.error == CheckToken(t, |current|).error
    ensures r.Ok? ==> var m := CheckToken(t, |current|).value;
      && |r.value| == |current| && r.value[m.pos] == m.residue
      && forall i | 0 <= i < |current| && i != m.pos :: r.value[i] == current[i]
  {
    match ParseToken(t)
    case Err(e) => Err(e)
    case Ok(m) =>
      if m.pos < |current| then Ok(current[m.pos := m.residue]) else Err(IndexOutOfRange)
  }

  /** The loop over the tokens, in list order; the first failure aborts. */
  function ApplyTokens(current: string, tokens: seq<string>): (r: Result<string>)
    ensures r.Ok? ==> |r.value| == |current|
    decreases |tokens|
  {
    if |tokens| == 0 then Ok(current)
    else
      match Step(current, tokens[0])
      case Err(e) => Err(e)
      case Ok(next) => ApplyTokens(next, tokens[1..])
  }

  /** `variant_to_sequence(variant_notation, wild_type_sequence)`. */
  function VariantToSequence(notation: string, wildType: string): (r: Result<string>)
    ensures r.Ok? ==> |r.value| == |wildType|
  {
    ApplyTokens(wildType, Split(notation))
  }

  // ---------------------------------------------------------------------------
  // An independent reference: validate every token first, then compute each
  // output position on its own as the residue of the last token naming it.
  // ---------------------------------------------------------------------------

  /** What a token does to a sequence of length `n`, on its own. */
  function CheckToken(t: string, n: nat): (r: Result<Mutation>)
    ensures r.Ok? <==> ParseToken(t).Ok? && ParseToken(t).value.pos < n
    ensures r.Ok? ==> r == ParseToken(t)
    ensures ParseToken(t).Ok? && r.Err? ==> r.error == IndexOutOfRange
    ensures ParseToken(t).Err? ==> r == ParseToken(t)
  {
    match ParseToken(t)
    case Err(e) => Err(e)
    case Ok(m) => if m.pos < n then Ok(m) else Err(IndexOutOfRange)
  }

  /** All tokens checked in order: the mutations when every one is good,
      otherwise the error of the first bad one. */
  function Validate(tokens: seq<string>, n: nat): (r: Result<seq<Mutation>>)
    decreases |tokens|
  {
    if |tokens| == 0 then Ok([])
    else
      match CheckToken(tokens[0], n)
      case Err(e) => Err(e)
      case Ok(m) =>
        match Validate(tokens[1..], n)
        case Err(e) => Err(e)
        case Ok(ms) => Ok([m] + ms)
  }

  /** Validation succeeds exactly when every token is good, and then yields
      each token's mutation in order; otherwise it reports the first bad
      token's error. */
  lemma {:induction false} ValidateCharacterization(tokens: seq<string>, n: nat)
    ensures var r := Validate(tokens, n);
      && (r.Ok? <==> forall k | 0 <= k < |tokens| :: CheckToken(tokens[k], n).Ok?)
      && (r.Ok? ==> |r.value| == |tokens| && forall k | 0 <= k < |tokens| :: CheckToken(tokens[k], n) == Ok(r.value[k]))
      && (r.Err? ==> exists k | 0 <= k < |tokens| ::
            && (forall j | 0 <= j < k :: CheckToken(tokens[j], n).Ok?)
            && CheckToken(tokens[k], n) == Err(r.error))
    decreases |tokens|
  {
    if |tokens| > 0 {
      var rest := tokens[1..];
      assert forall k | 0 <= k < |rest| :: rest[k] == tokens[k + 1];
      ValidateCharacterization(rest, n);
      if CheckToken(tokens[0], n).Ok? {
        var r := Validate(rest, n);
        if r.Err? {
          var k :| 0 <= k < |rest| && (forall j | 0 <= j < k :: CheckToken(rest[j], n).Ok?)
                   && CheckToken(rest[k], n) == Err(r.error);
          assert CheckToken(tokens[k + 1], n) == Err(r.error);
          assert forall j | 0 <= j < k + 1 :: CheckToken(tokens[j], n).Ok? by {
            forall j | 0 <= j < k + 1 ensures CheckToken(tokens[j], n).Ok? {
              if j > 0 { assert tokens[j] == rest[j - 1]; }
            }
          }
        } else {
          var m, ms := CheckToken(tokens[0], n).value, r.value;
          assert forall k | 0 <= k < |tokens| :: CheckToken(tokens[k], n) == Ok(([m] + ms)[k]) by {
            forall k | 0 <= k < |tokens| ensures CheckToken(tokens[k], n) == Ok(([m] + ms)[k]) {
              if k > 0 { assert tokens[k] == rest[k - 1]; }
            }
          }
        }
      }
    }
  }

  /** The residue position `i` ends up with: that of the last mutation naming
      `i`, or `d` when none does. */
  function LastWrite(ms: seq<Mutation>, i: nat, d: char): char
    decreases |ms|
  {
    if |ms| == 0 then d
    else if ms[|ms| - 1].pos == i then ms[|ms| - 1].residue
    else LastWrite(ms[..|ms| - 1], i, d)
  }

  /** The expected output, position by position. */
  function Expected(wildType: string, ms: seq<Mutation>): string {
    seq(|wildType|, i requires 0 <= i < |wildType| => LastWrite(ms, i, wildType[i]))
  }

  function Reference(wildType: string, tokens: seq<string>): Result<string> {
    match Validate(tokens, |wildType|)
    case Err(e) => Err(e)
    case Ok(ms) => Ok(Expected(wildType, ms))
  }

  // ---------------------------------------------------------------------------
  // Facts about LastWrite
  // ---------------------------------------------------------------------------

  /** Writing `m` first and then `ms` is the same as starting `ms` from the
      value `m` left behind. */
  lemma {:induction false} LastWriteCons(m: Mutation, ms: seq<Mutation>, i: nat, d: char)
    ensures LastWrite([m] + ms, i, d) == LastWrite(ms, i, if m.pos == i then m.residue else d)
    decreases |ms|
  {
    var all := [m] + ms;
    if |ms| > 0 && ms[|ms| - 1].pos != i {
      assert all[..|all| - 1] == [m] + ms[..|ms| - 1];
      LastWriteCons(m, ms[..|ms| - 1], i, d);
    }
  }

  /** A position no mutation names keeps its value. */
  lemma {:induction false} LastWriteUnnamed(ms: seq<Mutation>, i: nat, d: char)
    requires forall k | 0 <= k < |ms| :: ms[k].pos != i
    ensures LastWrite(ms, i, d) == d
    decreases |ms|
  {
    if |ms| > 0 {
      LastWriteUnnamed(ms[..|ms| - 1], i, d);
    }
  }

  /** A mutation that no later mutation overrides decides its position. */
  lemma {:induction false} LastWriteWins(ms: seq<Mutation>, k: nat, d: char)
    requires k < |ms|
    requires forall j | k < j < |ms| :: ms[j].pos != ms[k].pos
    ensures LastWrite(ms, ms[k].pos, d) == ms[k].residue
    decreases |ms|
  {
    if k < |ms| - 1 {
      var init := ms[..|ms| - 1];
      assert init[k] == ms[k];
      assert forall j | k < j < |init| :: init[j].pos != init[k].pos by {
        forall j | k < j < |init| ensures init[j].pos != init[k].pos {
          assert init[j] == ms[j];
        }
      }
      LastWriteWins(init, k, d);
    }
  }

  /** When every mutation naming `i` writes `c`, and one does, `i` ends up `c`. */
  lemma {:induction false} LastWriteAgreed(ms: seq<Mutation>, i: nat, c: char, d: char)
    requires exists k | 0 <= k < |ms| :: ms[k].pos == i
    requires forall k | 0 <= k < |ms| && ms[k].pos == i :: ms[k].residue == c
    ensures LastWrite(ms, i, d) == c
    decreases |ms|
  {
    var init := ms[..|ms| - 1];
    if ms[|ms| - 1].pos != i {
      var k :| 0 <= k < |ms| && ms[k].pos == i;
      assert init[k] == ms[k];
      assert forall j | 0 <= j < |init| && init[j].pos == i :: init[j].residue == c by {
        forall j | 0 <= j < |init| && init[j].pos == i ensures init[j].residue == c {
          assert init[j] == ms[j];
        }
      }
      LastWriteAgreed(init, i, c, d);
    }
  }

  // ---------------------------------------------------------------------------
  // The code agrees with the reference
  // ---------------------------------------------------------------------------

  /** The token loop, which parses and writes one token at a time, computes
      the same result (or the same first error) as the reference. */
  lemma {:induction false} ApplyMatchesReference(current: string, tokens: seq<string>)
    ensures ApplyTokens(current, tokens) == Reference(current, tokens)
    decreases |tokens|
  {
    if |tokens| == 0 {
      assert Expected(current, []) == current;
    } else {
      var n := |current|;
      match CheckToken(tokens[0], n)
      case Err(e) =>
      case Ok(m) =>
        var next := current[m.pos := m.residue];
        ApplyMatchesReference(next, tokens[1..]);
        match Validate(tokens[1..], n)
        case Err(e) =>
        case Ok(ms) =>
          assert Expected(next, ms) == Expected(current, [m] + ms) by {
            forall i | 0 <= i < n ensures Expected(next, ms)[i] == Expected(current, [m] + ms)[i] {
              LastWriteCons(m, ms, i, current[i]);
            }
          }
    }
  }

  lemma VariantToSequenceMatchesReference(notation: string, wildType: string)
    ensures VariantToSequence(notation, wildType) == Reference(wildType, Split(notation))
  {
    ApplyMatchesReference(wildType, Split(notation));
  }

  // ---------------------------------------------------------------------------
  // Properties of variant_to_sequence
  // ---------------------------------------------------------------------------

  /** Token `t` parses and names index `i`. */
  predicate Names(t: string, i: nat) {
    ParseToken(t).Ok? && ParseToken(t).value.pos == i
  }

  /** The notation succeeds exactly when every token parses and names an index
      inside the wild type; otherwise the error is that of the first token,
      in list order, that does not. */
  lemma SuccessAndFirstError(notation: string, wildType: string)
    ensures var r, tokens := VariantToSequence(notation, wildType), Split(notation);
      && (r.Ok? <==> forall k | 0 <= k < |tokens| :: CheckToken(tokens[k], |wildType|).Ok?)
      && (r.Err? ==> exists k | 0 <= k < |tokens| ::
            && (forall j | 0 <= j < k :: CheckToken(tokens[j], |wildType|).Ok?)
            && CheckToken(tokens[k], |wildType|) == Err(r.error))
  {
    VariantToSequenceMatchesReference(notation, wildType);
    ValidateCharacterization(Split(notation), |wildType|);
  }

  /** Every index that no token names keeps its wild-type residue. */
  lemma UnnamedKept(notation: string, wildType: string, i: nat)
    requires VariantToSequence(notation, wildType).Ok?
    requires i < |wildType|
    requires forall k | 0 <= k < |Split(notation)| :: !Names(Split(notation)[k], i)
    ensures VariantToSequence(notation, wildType).value[i] == wildType[i]
  {
    var tokens := Split(notation);
    VariantToSequenceMatchesReference(notation, wildType);
    ValidateCharacterization(tokens, |wildType|);
    var ms := Validate(tokens, |wildType|).value;
    assert forall k | 0 <= k < |ms| :: ms[k].pos != i by {
      forall k | 0 <= k < |ms| ensures ms[k].pos != i {
        assert !Names(tokens[k], i);
      }
    }
    LastWriteUnnamed(ms, i, wildType[i]);
  }

  /** The index a token names holds that token's last character, unless a
      later token names the same index: the last write wins. */
  lemma LastTokenWins(notation: string, wildType: string, k: nat, i: nat)
    requires VariantToSequence(notation, wildType).Ok?
    requires k < |Split(notation)| && Names(Split(notation)[k], i)
    requires forall j | k < j < |Split(notation)| :: !Names(Split(notation)[j], i)
    ensures var r, t := VariantToSequence(notation, wildType).value, Split(notation)[k];
      i < |r| && r[i] == t[|t| - 1]
  {
    var tokens := Split(notation);
    VariantToSequenceMatchesReference(notation, wildType);
    ValidateCharacterization(tokens, |wildType|);
    var ms := Validate(tokens, |wildType|).value;
    assert CheckToken(tokens[k], |wildType|) == Ok(ms[k]);
    assert forall j | k < j < |ms| :: ms[j].pos != ms[k].pos by {
      forall j | k < j < |ms| ensures ms[j].pos != ms[k].pos {
        assert !Names(tokens[j], i);
      }
    }
    LastWriteWins(ms, k, wildType[i]);
  }

  /** A single token `<original><pos><residue>` writes `residue` at index `pos`
      itself (no decrement), whatever `original` is, and fails when `pos` is not
      an index of the wild type. */
  lemma SingleToken(original: char, pos: nat, residue: char, wildType: string)
    requires original != ',' && residue != ','
    ensures VariantToSequence(FormatToken(original, pos, residue), wildType)
         == if pos < |wildType| then Ok(wildType[pos := residue]) else Err(IndexOutOfRange)
  {
    var t := FormatToken(original, pos, residue);
    FormatThenParse(original, pos, residue);
    FormattedTokenNoComma(original, pos, residue);
    assert Split(t) == [t] by { SplitJoin([t]); }
    assert Step(wildType, t) == if pos < |wildType| then Ok(wildType[pos := residue]) else Err(IndexOutOfRange);
    assert [t][1..] == [];
    assert VariantToSequence(t, wildType) == ApplyTokens(wildType, [t]);
  }

  /** Two tokens are applied left to right: the second write lands on top of
      the first (so it wins when both name one index), and either index out of
      range makes the whole notation fail. */
  lemma TwoTokens(o1: char, p1: nat, r1: char, o2: char, p2: nat, r2: char, wildType: string)
    requires o1 != ',' && r1 != ',' && o2 != ',' && r2 != ','
    ensures VariantToSequence(FormatToken(o1, p1, r1) + "," + FormatToken(o2, p2, r2), wildType)
         == if p1 < |wildType| && p2 < |wildType| then Ok(wildType[p1 := r1][p2 := r2]) else Err(IndexOutOfRange)
  {
    var t1, t2 := FormatToken(o1, p1, r1), FormatToken(o2, p2, r2);
    FormatThenParse(o1, p1, r1);
    FormatThenParse(o2, p2, r2);
    FormattedTokenNoComma(o1, p1, r1);
    FormattedTokenNoComma(o2, p2, r2);
    SplitJoin([t1, t2]);
    assert Join([t1, t2]) == t1 + "," + t2;
    assert VariantToSequence(t1 + "," + t2, wildType) == ApplyTokens(wildType, [t1, t2]);
    if p1 < |wildType| {
      var w1 := wildType[p1 := r1];
      assert [t1, t2][1..] == [t2] && [t2][1..] == [];
      assert ApplyTokens(wildType, [t1, t2]) == ApplyTokens(w1, [t2]);
      assert ApplyTokens(w1, [t2]) == if p2 < |wildType| then Ok(w1[p2 := r2]) else Err(IndexOutOfRange);
    }
  }

  lemma FormattedTokenNoComma(original: char, pos: nat, residue: char)
    requires original != ',' && residue != ','
    ensures NoComma(FormatToken(original, pos, residue))
  {
  }

  /** The text of a token that writes `residue` at `pos`, claiming `original` was there. */
  function FormatToken(original: char, pos: nat, residue: char): string {
    [original] + Decimal(pos) + [residue]
  }

  /** Parsing a formatted token recovers the index and the new residue; the
      claimed original residue is discarded. */
  lemma FormatThenParse(original: char, pos: nat, residue: char)
    ensures ParseToken(FormatToken(original, pos, residue)) == Ok(Mutation(pos, residue))
  {
    var t := FormatToken(original, pos, residue);
    assert t[1..|t| - 1] == Decimal(pos);
    DecimalRoundTrip(pos);
  }

  /** The first character of a token never matters: it is not compared with
      anything. */
  lemma OriginalResidueIgnored(t: string, u: string)
    requires |t| == |u| >= 1 && t[1..] == u[1..]
    ensures ParseToken(t) == ParseToken(u)
  {
    if |t| >= 2 {
      assert t[1..|t| - 1] == u[1..|u| - 1];
      assert t[|t| - 1] == t[1..][|t| - 2];
      assert Tail(t[..|t| - 1]) == Tail(u[..|u| - 1]);
    }
  }

  /** The empty notation is one empty token, which fails: an empty notation
      does not give back the wild type. */
  lemma EmptyNotationFails(wildType: string)
    ensures VariantToSequence("", wildType) == Err(EmptyToken)
  {
  }

  /** Tokens without a digit between the two residues are refused. */
  lemma MissingPositionFails(wildType: string)
    ensures VariantToSequence("A", wildType) == Err(BadPosition(""))
    ensures VariantToSequence("VA", wildType) == Err(BadPosition(""))
    ensures VariantToSequence("VxA", wildType) == Err(BadPosition("x"))
  {
  }

  // ---------------------------------------------------------------------------
  // Order of tokens
  // ---------------------------------------------------------------------------

  /** Tokens that parse and name pairwise-distinct indices give the same
      result in any order. */
  lemma OrderIrrelevant(tokens: seq<string>, reordered: seq<string>, wildType: string)
    requires |tokens| >= 1
    requires forall k | 0 <= k < |tokens| :: NoComma(tokens[k]) && ParseToken(tokens[k]).Ok?
    requires forall k1, k2, i | 0 <= k1 < |tokens| && 0 <= k2 < |tokens| && Names(tokens[k1], i) && Names(tokens[k2], i) :: k1 == k2
    requires multiset(reordered) == multiset(tokens)
    ensures VariantToSequence(Join(tokens), wildType) == VariantToSequence(Join(reordered), wildType)
  {
    assert |reordered| == |tokens| by {
      assert |multiset(reordered)| == |multiset(tokens)|;
    }
    assert forall k | 0 <= k < |reordered| :: reordered[k] in tokens by {
      forall k | 0 <= k < |reordered| ensures reordered[k] in tokens {
        assert reordered[k] in multiset(reordered);
      }
    }
    assert forall k | 0 <= k < |tokens| :: tokens[k] in reordered by {
      forall k | 0 <= k < |tokens| ensures tokens[k] in reordered {
        assert tokens[k] in multiset(tokens);
      }
    }
    assert forall k | 0 <= k < |reordered| :: NoComma(reordered[k]) by {
      forall k | 0 <= k < |reordered| ensures NoComma(reordered[k]) {
        var j :| 0 <= j < |tokens| && tokens[j] == reordered[k];
      }
    }
    SplitJoin(tokens);
    SplitJoin(reordered);
    VariantToSequenceMatchesReference(Join(tokens), wildType);
    VariantToSequenceMatchesReference(Join(reordered), wildType);
    ReferenceOrderIrrelevant(tokens, reordered, wildType);
  }

  lemma ReferenceOrderIrrelevant(tokens: seq<string>, reordered: seq<string>, wildType: string)
    requires forall k | 0 <= k < |tokens| :: ParseToken(tokens[k]).Ok?
    requires forall k1, k2, i | 0 <= k1 < |tokens| && 0 <= k2 < |tokens| && Names(tokens[k1], i) && Names(tokens[k2], i) :: k1 == k2
    requires forall k | 0 <= k < |reordered| :: reordered[k] in tokens
    requires forall k | 0 <= k < |tokens| :: tokens[k] in reordered
    ensures Reference(wildType, tokens) == Reference(wildType, reordered)
  {
    var n := |wildType|;
    var v, w := Validate(tokens, n), Validate(reordered, n);
    assert forall k | 0 <= k < |reordered| :: ParseToken(reordered[k]).Ok? by {
      forall k | 0 <= k < |reordered| ensures ParseToken(reordered[k]).Ok? {
        var j :| 0 <= j < |tokens| && tokens[j] == reordered[k];
      }
    }
    ValidateCharacterization(tokens, n);
    ValidateCharacterization(reordered, n);
    if v.Err? {
      var k :| 0 <= k < |tokens| && CheckToken(tokens[k], n) == Err(v.error);
      var j :| 0 <= j < |reordered| && CheckToken(reordered[j], n) == Err(w.error);
    } else {
      var ms, ns := v.value, w.value;
      forall i | 0 <= i < n
        ensures LastWrite(ms, i, wildType[i]) == LastWrite(ns, i, wildType[i])
      {
        PositionAgrees(tokens, reordered, ms, ns, i, wildType[i]);
      }
      assert Expected(wildType, ms) == Expected(wildType, ns);
    }
  }

  /** Under the ordering lemma's conditions, both token lists leave each
      position with the same residue. */
  lemma PositionAgrees(tokens: seq<string>, reordered: seq<string>, ms: seq<Mutation>, ns: seq<Mutation>, i: nat, d: char)
    requires |ms| == |tokens| && forall k | 0 <= k < |tokens| :: ParseToken(tokens[k]) == Ok(ms[k])
    requires |ns| == |reordered| && forall k | 0 <= k < |reordered| :: ParseToken(reordered[k]) == Ok(ns[k])
    requires forall k1, k2, i | 0 <= k1 < |tokens| && 0 <= k2 < |tokens| && Names(tokens[k1], i) && Names(tokens[k2], i) :: k1 == k2
    requires forall k | 0 <= k < |reordered| :: reordered[k] in tokens
    requires forall k | 0 <= k < |tokens| :: tokens[k] in reordered
    ensures LastWrite(ms, i, d) == LastWrite(ns, i, d)
  {
    if k :| 0 <= k < |ms| && ms[k].pos == i {
      var c := ms[k].residue;
      assert Names(tokens[k], i);
      assert forall j | 0 <= j < |ms| && ms[j].pos == i :: ms[j].residue == c by {
        forall j | 0 <= j < |ms| && ms[j].pos == i ensures ms[j].residue == c {
          assert Names(tokens[j], i);
        }
      }
      var j :| 0 <= j < |reordered| && reordered[j] == tokens[k];
      assert ns[j].pos == i;
      assert forall j | 0 <= j < |ns| && ns[j].pos == i :: ns[j].residue == c by {
        forall j | 0 <= j < |ns| && ns[j].pos == i ensures ns[j].residue == c {
          var j' :| 0 <= j' < |tokens| && tokens[j'] == reordered[j];
          assert Names(tokens[j'], i);
        }
      }
      LastWriteAgreed(ms, i, c, d);
      LastWriteAgreed(ns, i, c, d);
    } else {
      assert forall j | 0 <= j < |ns| :: ns[j].pos != i by {
        forall j | 0 <= j < |ns| ensures ns[j].pos != i {
          var j' :| 0 <= j' < |tokens| && tokens[j'] == reordered[j];
          assert ms[j'].pos != i;
        }
      }
      LastWriteUnnamed(ms, i, d);
      LastWriteUnnamed(ns, i, d);
    }
  }
}
